=== FILE: README.md ===
# Failure-aware CRAG decision pipeline, modelled in Dafny

The system answers a question from uploaded documents. It retrieves the three
chunks most similar to the question and applies a hard hallucination gate to the
best similarity. It then generates an answer from the best two chunks and
classifies that answer as `OK`, `OUT_OF_SCOPE`, `WEAK_CONTEXT` or
`MODEL_UNCERTAIN`. It retries once with a wider retrieval, and falls back to web
search when the evidence is too weak. This project models that decision logic
as pure Dafny functions:

- `Text` (`text.dfy`): the Python string operations the logic depends on,
  restricted to ASCII. These are `strip()`, `lower()`, `split()`, `sub in s`
  and `sep.join(...)`. `split()` is checked against an independent word count
  defined by word starts, and `sub in s` against occurrence at an index.
  `strip()` is characterised by what it keeps and what it drops. `lower()` and
  `join()` are defined directly: `lower()` has lemmas for idempotence and
  whitespace preservation, and `join()` has a containment lemma.
- `Retrieval` (`retrieval.dfy`): retrieval hits, the max/mean statistics, and
  the two context builders. The first joins the top two texts; the second joins
  every text of the retry batch.
- `FailureClassifier` (`failure_classifier.dfy`): `classify_failure` as a
  first-match priority chain. It also holds the chain as a decision table, and
  the string labels `classify_failure` returns.
- `Llm` (`llm.dfy`): the terseness guardrail of `generate_answer`. The model's
  decoding is an oracle that returns an arbitrary string.
- `Capabilities` (`capabilities.dfy`): the oracles (grounded decoding, web
  search, web generation) and a trace of the calls a run makes.
- `App` (`app.py`'s pipeline, `app.dfy`): gate → top-two context → classify →
  at most one retry → final decision. It returns the decision record
  `{answer, source, failure, retries}` and the call trace.
- `RagScript` (`test_rag.py`'s pipeline, `rag_script.dfy`): this variant refuses
  at the gate and never retries. Its web fallback checks for an empty web
  context. It is kept separate from `App`, and a lemma states where the two
  differ.

Facts the proofs establish:

- The gate (0.45) is stricter than the classifier's out-of-scope threshold
  (0.35). Both classifications in `app.py` reuse the top-K `max_sim`, so past
  the gate the outcome is never `OUT_OF_SCOPE` and the source is always
  documents. The web branch of the final decision (`app.py:152-158`) is
  unreachable. The same holds for the web fallback of `test_rag.py`
  (`test_rag.py:83-98`).
- The retry is classified with the top-K `max_sim` (`app.py:140`), not with
  statistics of the retry batch, so `OUT_OF_SCOPE` stays unreachable after a
  retry.
- Only `test_rag.py:88-90` checks for a blank web context. `app.py:110-111`
  and `app.py:155-156` call `generate_web_answer` directly, and the model
  follows each file.
- An empty retrieval batch raises at `max([])` (`app.py:96`, `test_rag.py:50`).
  The model returns `RetrievalError` for this case.

## Model

| member | source | states |
|---|---|---|
| FailureClassifier.Classify | failure_classifier.py:1-22 | `OUT_OF_SCOPE` exactly when max similarity < 0.35. `WEAK_CONTEXT` exactly when above it and the stripped, lowercased answer is "i don't know". `MODEL_UNCERTAIN` exactly when above it, not the refusal, and fewer than 6 words. `OK` exactly when above it, not the refusal, and at least 6 words |
| FailureClassifier.AverageIgnored | failure_classifier.py:1-22 | two calls that differ only in the average similarity return the same outcome |
| FailureClassifier.ClassifyLabel | failure_classifier.py:3-22 | the returned string is always one of the four documented labels, and it parses back to the outcome it names |
| FailureClassifier.LabelRoundTrip | failure_classifier.py:3-7 | labels and outcomes correspond one to one |
| FailureClassifier.ClassifyIsFirstMatch | failure_classifier.py:10-22 | the nested checks agree with the first-match-wins table (below scope → `OUT_OF_SCOPE`, refusal → `WEAK_CONTEXT`, fewer than 6 words → `MODEL_UNCERTAIN`, else `OK`) |
| FailureClassifier.RefusalBeforeWordCount | failure_classifier.py:15-20 | the refusal has 3 words, below the 6-word minimum. With any capitalisation and any surrounding whitespace it is still `WEAK_CONTEXT`, not `MODEL_UNCERTAIN`, because the refusal check comes first |
| Text.WordCountSurrounding | failure_classifier.py:19 | leading and trailing whitespace does not change `len(answer.split())` |
| FailureClassifier.ExampleOutOfScope | failure_classifier.py:11-12 | similarity 0.2 gives `OUT_OF_SCOPE` whatever the answer |
| FailureClassifier.ExampleRefusal | failure_classifier.py:15-16 | "I don't know" at similarity 0.9 gives `WEAK_CONTEXT` |
| FailureClassifier.ExampleOk | failure_classifier.py:11-22 | "The capital of France is Paris." at similarity 0.9 gives `OK`: six words, and not the refusal |
| FailureClassifier.ExampleOneWord | failure_classifier.py:19-20 | "Paris" at similarity 0.9 gives `MODEL_UNCERTAIN` |
| Text.Strip | failure_classifier.py:15 | `strip()` yields a string with no whitespace at either end |
| Text.LowerIdempotent | failure_classifier.py:15 | `lower()` applied twice is `lower()` applied once, and whitespace stays at the same positions |
| Text.StripDropsOnlySpace | failure_classifier.py:15 | `strip()` keeps one contiguous piece of its input, and what it drops before and after that piece is all whitespace |
| Text.StripSurrounding | failure_classifier.py:15 | `strip()` of any whitespace + x + whitespace, where x has no whitespace at its ends, is x |
| Text.StripEmptyIffAllSpace | test_rag.py:88 | `not s.strip()` holds exactly when s is all whitespace |
| Text.Split | failure_classifier.py:19 | every word `split()` returns is non-empty and contains no whitespace |
| Text.SplitKeepsText | failure_classifier.py:19 | the words, concatenated, are exactly the non-whitespace characters of the input, in order |
| Text.SplitCountsWords | llm.py:43 | `len(s.split())` equals the number of word starts: non-whitespace characters at the start or after whitespace |
| Text.Contains | llm.py:44 | `sub in s` holds exactly when sub occurs in s at some index |
| Text.Join | app.py:119 | `sep.join(parts)` of no parts is the empty string, and the first part is a prefix of the result |
| Text.JoinContainsEach | app.py:137 | every part occurs in the joined string |
| Text.JoinPrefix | app.py:119 | joining the first k parts gives a prefix of joining all of them, so `join()` keeps the parts in order |
| Llm.Guard | llm.py:43-49 | the result is the answer unchanged or exactly "I don't know". It is unchanged when the answer has at least 5 words or holds " is ", " was " or " are " after lowercasing. Otherwise it is the refusal |
| Llm.GenerateAnswer | llm.py:39-49 | whatever the model decodes, the caller gets either the refusal or the stripped decoding. A stripped decoding with at least 5 words or a copula comes back unchanged, and a shorter one with no copula becomes the refusal |
| Llm.EmptyBecomesRefusal | llm.py:43-47 | the empty decoding maps to "I don't know" |
| Llm.RefusalFixed | llm.py:43-47 | the guard's own refusal has 3 words and no copula, so the guard keeps it |
| Llm.GuardIdempotent | llm.py:43-49 | guarding twice gives the same result as guarding once |
| Llm.GuardRefusalIsWeakContext | llm.py:46-47 | when max similarity is at least 0.35, a refusal produced by the guard classifies as `WEAK_CONTEXT` |
| Retrieval.Max | app.py:96 | `max` returns one of the scores, and that score bounds all of them |
| Retrieval.MeanBetween | app.py:97 | any lower and upper bounds on every score also bound `np.mean` of the scores |
| Retrieval.Mean | app.py:97 | the average lies between the smallest and the largest score, so `max_sim >= avg_sim` |
| Retrieval.Take | app.py:119 | the slice `xs[:n]` has length `min(len(xs), n)` and agrees with `xs` at every index it keeps |
| Retrieval.TopTwoContext | app.py:119 | the initial context is the first text alone, or the first two texts joined by "\n\n". Texts past the second are never used, although three are retrieved |
| Retrieval.FullContext | app.py:137 | every retry text occurs in the retry context, and the first-attempt context over the same hits is a prefix of it, so retrieval order is kept |
| App.GateStricterThanClassifier | app.py:18 | the gate threshold 0.45 is above the classifier's 0.35 |
| App.Resolve | app.py:147-164 | the source is the web exactly for `OUT_OF_SCOPE`, and then the answer shown is `generate_web_answer(question, web_search(question))`, after one web search and one web generation are recorded. `OK` and the two low-confidence outcomes keep the document answer and its classification, with no further calls |
| App.RunApp | app.py:82-164 | Nothing runs without a question and an index. An empty batch is an error, after the one search and no other call. Below 0.45 the run makes a web search and a web generation, makes no grounded generation, and stops without a record. Past the gate: never `OUT_OF_SCOPE`, source always documents, `retries` ≤ 1. `retries` is 1 exactly when the first answer is `WEAK_CONTEXT` or `MODEL_UNCERTAIN`. The retry answer and `OK` are adopted only when the retry classifies `OK`; otherwise the original answer and failure stay. Without a retry the run makes exactly the first search and one generation over the top two texts |
| App.GateIgnoresDecoder | app.py:106-116 | below the gate, replacing the grounded generator with any other leaves the run unchanged |
| App.RetryScoresIgnored | app.py:140 | the retry batch's similarity scores never affect the run: the retry is classified with the original top-K statistics |
| App.PastGateIgnoresWeb | app.py:152-158 | past the gate, replacing the web oracles leaves the run unchanged, so the out-of-scope branch is dead |
| RagScript.WebFallback | test_rag.py:86-98 | a blank web context gives "No relevant information found on the web." without calling the web generator. Otherwise the web generator answers once |
| RagScript.RunScript | test_rag.py:44-98 | An empty batch is an error, after the one search and no other call. Below 0.45 the script prints the fixed refusal, with no generation and no classification. Otherwise it makes exactly one grounded generation over the top two texts and never retries. Its classification is never `OUT_OF_SCOPE`, so the web fallback never runs |
| RagScript.DiffersFromApp | test_rag.py:58-68 | Below the gate, the page makes one web generation while the script refuses and makes none. Past the gate, both get the same first answer and classification. A retryable answer costs the page a second grounded generation; the script makes exactly one |

## Left out

- The Streamlit page, its widgets and session state (`app.py:1-79`, the rendering in 99-103 and 166-177). The button press is folded into the "no question / no index" case.
- Document ingestion, PDF loading and chunking (`app.py:43-76`, `load_docs.py`). `chunking.py` is not part of this model.
- Embedding and the FAISS index (`embeddings.py`, `vector_store.py`). Similarities are arbitrary reals supplied with each hit. The `1/(1+distance)` conversion and FAISS's padding of short result lists are not modelled.
- Floating point: similarities and their mean are exact reals. Rounding in `np.mean` and in the displayed metrics is not modelled.
- `web_search.py` (HTTP POST and HTML scraping) is an oracle from question to snippet text. `generate_web_answer` is an oracle as well; it has no guard.
- The prompt text, tokenisation, truncation and beam-search decoding of `llm.py`. Together they form one oracle from question and context to decoded text.
- Text.IsSpace: Python's whitespace and lowercasing cover all of Unicode. The model covers only the ASCII code points (tab through carriage return, U+001C-U+001F, space) and `A`-`Z` lowercasing.
- Oracle failures: HTTP errors and time-outs of `requests.post` (`web_search.py:15`), and exceptions from the tokenizer or the generator, abort a run without a record, because `app.py` has no `try`/`except`. The oracles are total functions here, so every contract describes runs whose oracles return.
- The prints of `test_rag.py`, its fixed document folder, and its `exit()`. Its hard-coded question is kept as a constant.
- `test_embeddings.py`, `test_search.py` and `test_chunking.py`: print and assert scripts with no decision logic.

=== FILE: app.dfy ===
/**
 The interactive pipeline: retrieve the top three chunks, gate on the best
 similarity, answer from the best two, classify, retry once with a wider
 retrieval, and decide where the final answer comes from.

 The page, its widgets and its session are outside the model: the pipeline
 takes the question, whether an index has been built, the two retrieval
 batches the vector search returns (at `TopK` and, if a retry happens, at
 `RetryK`) and the generation and web oracles, and returns the outcome
 together with the calls it made.
 */
module App {
  import opened Text
  import opened Retrieval
  import opened FailureClassifier
  import opened Llm
  import opened Capabilities

  const TopK: nat := 3
  const RetryK: nat := 6
  const MaxRetries: nat := 1
  /** The hard hallucination gate on the best similarity. */
  const MinSimilarityThreshold: real := 0.45

  datatype Source = Documents | Web

  /** The decision record shown after a run: `failure_reason`, `retries_used`,
      `answer_source`, with the answer the page displays. */
  datatype Decision = Decision(answer: string, source: Source, failure: FailureReason, retries: nat)

  datatype Outcome =
    | NotStarted                   // no question, or no index built yet
    | RetrievalError               // `max()` of an empty similarity list raises
    | WebOnly(webAnswer: string)   // gate tripped: web answer shown, run stopped
    | Decided(decision: Decision)

  datatype Run = Run(outcome: Outcome, events: seq<Event>)

  /** One generated answer with its classification. */
  datatype Attempt = Attempt(answer: string, failure: FailureReason)

  /** The gate is strictly above the classifier's out-of-scope threshold. */
  lemma GateStricterThanClassifier()
    ensures OutOfScopeThreshold < MinSimilarityThreshold
  {
  }

  predicate Gated(results: seq<Hit>)
    requires results != []
  {
    Max(Similarities(results)) < MinSimilarityThreshold
  }

  /** The first answer, over the top two chunks, classified with the top-K statistics. */
  function FirstAttempt(question: string, results: seq<Hit>, o: Oracles): Attempt
    requires results != []
  {
    var sims := Similarities(results);
    var answer := GenerateAnswer(o.decode, question, TopTwoContext(results));
    Attempt(answer, Classify(Max(sims), Mean(sims), answer))
  }

  /** The retry answer, over every chunk of the wider retrieval, but classified
      with the statistics of the ORIGINAL top-K batch. */
  function RetryAttempt(question: string, results: seq<Hit>, retryResults: seq<Hit>, o: Oracles): Attempt
    requires results != []
  {
    var sims := Similarities(results);
    var answer := GenerateAnswer(o.decode, question, FullContext(retryResults));
    Attempt(answer, Classify(Max(sims), Mean(sims), answer))
  }

  predicate Retryable(failure: FailureReason) {
    failure == WeakContext || failure == ModelUncertain
  }

  /** The retry replaces the original only when it classifies as `Ok`. */
  function ChooseAttempt(original: Attempt, retry: Attempt): Attempt {
    if retry.failure == Ok then retry else original
  }

  /** The final decision. Only `OutOfScope` goes to the web; `Ok` and the two
      low-confidence outcomes keep the document answer. */
  function Resolve(question: string, final: Attempt, retries: nat, o: Oracles, events: seq<Event>): (run: Run)
    ensures run.outcome.Decided?
    ensures run.outcome.decision.failure == final.failure && run.outcome.decision.retries == retries
    ensures run.outcome.decision.source == Web <==> final.failure == OutOfScope
    ensures final.failure != OutOfScope ==> run.outcome.decision.answer == final.answer && run.events == events
    ensures |events| <= |run.events|
    ensures final.failure == OutOfScope ==> run.events[..|events|] == events && CountGenerateWeb(run.events) == CountGenerateWeb(events) + 1
    ensures final.failure == OutOfScope ==>
      && run.outcome.decision.answer == o.webGenerate(question, o.webSearch(question))
      && run.events == events + [WebSearch(question), GenerateWeb(o.webSearch(question))]
    ensures CountGenerate(run.events) == CountGenerate(events)
  {
    if final.failure == Ok then
      Run(Decided(Decision(final.answer, Documents, Ok, retries)), events)
    else if final.failure == OutOfScope then
      var webContext := o.webSearch(question);
      var tail := [WebSearch(question), GenerateWeb(webContext)];
      CountAppend(events, tail);
      CountPair(WebSearch(question), GenerateWeb(webContext));
      CountSingle(WebSearch(question));
      CountSingle(GenerateWeb(webContext));
      Run(Decided(Decision(o.webGenerate(question, webContext), Web, OutOfScope, retries)), events + tail)
    else
      Run(Decided(Decision(final.answer, Documents, final.failure, retries)), events)
  }

  /** The calls of a run that passes the gate, before the final decision. */
  function GroundedCalls(results: seq<Hit>, retryResults: seq<Hit>, retried: bool): (events: seq<Event>)
    ensures CountGenerate(events) == if retried then 2 else 1
    ensures CountGenerateWeb(events) == 0
    ensures |events| >= 2 && events[..2] == [Search(TopK), Generate(TopTwoContext(results))]
    ensures retried ==> events[2..] == [Search(RetryK), Generate(FullContext(retryResults))]
    ensures !retried ==> |events| == 2
  {
    var initial := [Search(TopK), Generate(TopTwoContext(results))];
    CountPair(Search(TopK), Generate(TopTwoContext(results)));
    CountSingle(Search(TopK));
    CountSingle(Generate(TopTwoContext(results)));
    if retried then
      var retry := [Search(RetryK), Generate(FullContext(retryResults))];
      CountPair(Search(RetryK), Generate(FullContext(retryResults)));
      CountSingle(Search(RetryK));
      CountSingle(Generate(FullContext(retryResults)));
      CountAppend(initial, retry);
      assert (initial + retry)[..2] == initial && (initial + retry)[2..] == retry;
      initial + retry
    else
      initial
  }

  /** The main pipeline of the page, from the question to the decision record. */
  function RunApp(question: string, hasIndex: bool, results: seq<Hit>, retryResults: seq<Hit>, o: Oracles): (run: Run)
    ensures run.outcome.NotStarted? <==> question == [] || !hasIndex
    ensures run.outcome.NotStarted? ==> run.events == []
    ensures run.outcome.RetrievalError? <==> question != [] && hasIndex && results == []
    ensures run.outcome.RetrievalError? ==> run.events == [Search(TopK)]
    // Below the gate: straight to the web, no grounded generation, no record.
    ensures run.outcome.WebOnly? <==> question != [] && hasIndex && results != [] && Gated(results)
    ensures run.outcome.WebOnly? ==>
              && CountGenerate(run.events) == 0
              && run.events == [Search(TopK), WebSearch(question), GenerateWeb(o.webSearch(question))]
              && run.outcome.webAnswer == o.webGenerate(question, o.webSearch(question))
    // Past the gate: never out of scope, always documents, never the web.
    ensures run.outcome.Decided? ==>
              && run.outcome.decision.failure != OutOfScope
              && run.outcome.decision.source == Documents
              && CountGenerateWeb(run.events) == 0
    // At most one retry, and exactly when the first answer is retryable.
    ensures run.outcome.Decided? ==>
              && run.outcome.decision.retries <= MaxRetries
              && (run.outcome.decision.retries == 1 <==> Retryable(FirstAttempt(question, results, o).failure))
              && CountGenerate(run.events) == 1 + run.outcome.decision.retries
    // The first generation sees the top two chunks; a retry searches wider and sees all of them.
    ensures run.outcome.Decided? ==>
              && |run.events| >= 2
              && run.events[..2] == [Search(TopK), Generate(TopTwoContext(results))]
              && (run.outcome.decision.retries == 1 ==>
                    run.events[2..] == [Search(RetryK), Generate(FullContext(retryResults))])
    // Without a retry the run makes exactly the first search and the first generation.
    ensures run.outcome.Decided? && run.outcome.decision.retries == 0 ==>
              run.events == [Search(TopK), Generate(TopTwoContext(results))]
    // The retry is adopted only when it classifies as Ok; otherwise nothing of it is kept.
    ensures run.outcome.Decided? && run.outcome.decision.retries == 0 ==>
              var first := FirstAttempt(question, results, o);
              run.outcome.decision == Decision(first.answer, Documents, Ok, 0)
    ensures run.outcome.Decided? && run.outcome.decision.retries == 1 ==>
              var first := FirstAttempt(question, results, o);
              var retry := RetryAttempt(question, results, retryResults, o);
              run.outcome.decision ==
                (if retry.failure == Ok then Decision(retry.answer, Documents, Ok, 1)
                 else Decision(first.answer, Documents, first.failure, 1))
  {
    if question == [] || !hasIndex then
      Run(NotStarted, [])
    else if results == [] then
      Run(RetrievalError, [Search(TopK)])
    else if Gated(results) then
      var webContext := o.webSearch(question);
      var events := [Search(TopK), WebSearch(question), GenerateWeb(webContext)];
      assert CountGenerate(events) == 0 by {
        assert events == [Search(TopK)] + [WebSearch(question), GenerateWeb(webContext)];
        CountAppend([Search(TopK)], [WebSearch(question), GenerateWeb(webContext)]);
        CountPair(WebSearch(question), GenerateWeb(webContext));
        CountSingle(Search(TopK));
        CountSingle(WebSearch(question));
        CountSingle(GenerateWeb(webContext));
      }
      Run(WebOnly(o.webGenerate(question, webContext)), events)
    else
      var first := FirstAttempt(question, results, o);
      var retries := 0;
      if Retryable(first.failure) && retries < MaxRetries then
        var retry := RetryAttempt(question, results, retryResults, o);
        Resolve(question, ChooseAttempt(first, retry), retries + 1, o, GroundedCalls(results, retryResults, true))
      else
        Resolve(question, first, retries, o, GroundedCalls(results, retryResults, false))
  }

  // ------------------------------------------------------------ relational facts

  /** Below the gate the grounded generator is never consulted: swapping it for
      any other leaves the run unchanged. */
  lemma GateIgnoresDecoder(question: string, hasIndex: bool, results: seq<Hit>, retryResults: seq<Hit>,
                           decode1: (string, string) -> string, decode2: (string, string) -> string,
                           webSearch: string -> string, webGenerate: (string, string) -> string)
    requires results != [] && Gated(results)
    ensures RunApp(question, hasIndex, results, retryResults, Oracles(decode1, webSearch, webGenerate))
         == RunApp(question, hasIndex, results, retryResults, Oracles(decode2, webSearch, webGenerate))
  {
  }

  /** The retry batch contributes only its texts: its similarity scores never
      influence the run, because the retry is classified with the original
      top-K statistics. */
  lemma RetryScoresIgnored(question: string, hasIndex: bool, results: seq<Hit>,
                           retry1: seq<Hit>, retry2: seq<Hit>, o: Oracles)
    requires Texts(retry1) == Texts(retry2)
    ensures RunApp(question, hasIndex, results, retry1, o) == RunApp(question, hasIndex, results, retry2, o)
  {
    assert FullContext(retry1) == FullContext(retry2);
  }

  /** Past the gate the web is never consulted: swapping the web oracles for any
      others leaves the run unchanged, so the out-of-scope branch of the final
      decision is unreachable. */
  lemma PastGateIgnoresWeb(question: string, hasIndex: bool, results: seq<Hit>, retryResults: seq<Hit>,
                           decode: (string, string) -> string,
                           webSearch1: string -> string, webGenerate1: (string, string) -> string,
                           webSearch2: string -> string, webGenerate2: (string, string) -> string)
    requires results != [] && !Gated(results)
    ensures RunApp(question, hasIndex, results, retryResults, Oracles(decode, webSearch1, webGenerate1))
         == RunApp(question, hasIndex, results, retryResults, Oracles(decode, webSearch2, webGenerate2))
  {
  }
}

=== FILE: capabilities.dfy ===
/**
 The collaborators both pipelines call but this model does not look inside,
 and the record of which of them a run invoked.
 */
module Capabilities {

  /** `decode(question, context)`: the raw text the grounded prompt decodes to.
      `webSearch(question)`: the concatenated web snippets (possibly empty).
      `webGenerate(question, webContext)`: `generate_web_answer`, unguarded. */
  datatype Oracles = Oracles(
    decode: (string, string) -> string,
    webSearch: string -> string,
    webGenerate: (string, string) -> string)

  /** One call into a collaborator, in the order a run makes it. */
  datatype Event =
    | Search(k: nat)              // vector search for the top `k` chunks
    | Generate(context: string)   // grounded generation over `context`
    | WebSearch(query: string)    // web snippet search
    | GenerateWeb(webContext: string)

  /** How many grounded generations a trace holds. */
  function CountGenerate(events: seq<Event>): nat {
    if events == [] then 0
    else (if events[0].Generate? then 1 else 0) + CountGenerate(events[1..])
  }

  /** How many web generations a trace holds. */
  function CountGenerateWeb(events: seq<Event>): nat {
    if events == [] then 0
    else (if events[0].GenerateWeb? then 1 else 0) + CountGenerateWeb(events[1..])
  }

  lemma {:induction false} CountAppend(a: seq<Event>, b: seq<Event>)
    ensures CountGenerate(a + b) == CountGenerate(a) + CountGenerate(b)
    ensures CountGenerateWeb(a + b) == CountGenerateWeb(a) + CountGenerateWeb(b)
    decreases |a|
  {
    if a == [] {
      assert a + b == b;
    } else {
      assert (a + b)[0] == a[0];
      assert (a + b)[1..] == a[1..] + b;
      CountAppend(a[1..], b);
    }
  }

  lemma CountSingle(e: Event)
    ensures CountGenerate([e]) == if e.Generate? then 1 else 0
    ensures CountGenerateWeb([e]) == if e.GenerateWeb? then 1 else 0
  {
    assert [e][1..] == [];
  }

  /** Counting a short trace, call by call. */
  lemma CountPair(a: Event, b: Event)
    ensures CountGenerate([a, b]) == CountGenerate([a]) + CountGenerate([b])
    ensures CountGenerateWeb([a, b]) == CountGenerateWeb([a]) + CountGenerateWeb([b])
  {
    assert [a, b] == [a] + [b];
    CountAppend([a], [b]);
  }
}

=== FILE: failure_classifier.dfy ===
/**
 The failure classifier: a priority chain, first match wins, from the
 retrieval statistics and the generated answer to one of four outcomes.
 */
module FailureClassifier {
  import opened Text
  import opened Wrappers

  datatype FailureReason = Ok | OutOfScope | WeakContext | ModelUncertain

  /** Below this best-hit similarity the documents are judged irrelevant. */
  const OutOfScopeThreshold: real := 0.35

  /** Answers with fewer whitespace-separated words are judged uncertain. */
  const MinAnswerWords: nat := 6

  /** The refusal, as compared after stripping and lowercasing. */
  const RefusalKey: string := "i don't know"

  /** `answer.strip().lower() == "i don't know"` */
  predicate IsRefusal(answer: string) {
    Lower(Strip(answer)) == RefusalKey
  }

  /** `classify_failure(max_similarity, avg_similarity, answer)`. The contract
      spells out, with the reference word count, which of the four outcomes
      each input gets; `avgSimilarity` appears nowhere in it. */
  function Classify(maxSimilarity: real, avgSimilarity: real, answer: string): (r: FailureReason)
    ensures r == OutOfScope <==> maxSimilarity < OutOfScopeThreshold
    ensures r == WeakContext <==> maxSimilarity >= OutOfScopeThreshold && IsRefusal(answer)
    ensures r == ModelUncertain <==>
              maxSimilarity >= OutOfScopeThreshold && !IsRefusal(answer) && WordCount(answer) < MinAnswerWords
    ensures r == Ok <==>
              maxSimilarity >= OutOfScopeThreshold && !IsRefusal(answer) && WordCount(answer) >= MinAnswerWords
  {
    SplitCountsWords(answer);
    if maxSimilarity < OutOfScopeThreshold then OutOfScope
    else if IsRefusal(answer) then WeakContext
    else if |Split(answer)| < MinAnswerWords then ModelUncertain
    else Ok
  }

  /** The average similarity is passed in but never consulted. */
  lemma AverageIgnored(maxSimilarity: real, avg1: real, avg2: real, answer: string)
    ensures Classify(maxSimilarity, avg1, answer) == Classify(maxSimilarity, avg2, answer)
  {
  }

  // ------------------------------------------------------------ string labels

  /** The string `classify_failure` returns for each outcome. */
  function Label(r: FailureReason): string {
    match r
    case Ok => "OK"
    case OutOfScope => "OUT_OF_SCOPE"
    case WeakContext => "WEAK_CONTEXT"
    case ModelUncertain => "MODEL_UNCERTAIN"
  }

  const Labels: set<string> := {"OK", "OUT_OF_SCOPE", "WEAK_CONTEXT", "MODEL_UNCERTAIN"}

  function ParseLabel(s: string): (r: Option<FailureReason>)
  {
    if s == "OK" then Some(Ok)
    else if s == "OUT_OF_SCOPE" then Some(OutOfScope)
    else if s == "WEAK_CONTEXT" then Some(WeakContext)
    else if s == "MODEL_UNCERTAIN" then Some(ModelUncertain)
    else None
  }

  /** The classifier as `classify_failure` returns it: always one of the four
      documented strings, each naming a distinct outcome. */
  function ClassifyLabel(maxSimilarity: real, avgSimilarity: real, answer: string): (name: string)
    ensures name in Labels
    ensures ParseLabel(name) == Some(Classify(maxSimilarity, avgSimilarity, answer))
  {
    Label(Classify(maxSimilarity, avgSimilarity, answer))
  }

  /** Labels and outcomes are in one-to-one correspondence. */
  lemma LabelRoundTrip(r: FailureReason, s: string)
    ensures ParseLabel(Label(r)) == Some(r)
    ensures ParseLabel(s).Some? ==> s in Labels && Label(ParseLabel(s).value) == s
  {
  }

  // ------------------------------------------------------------ decision table

  /** The three guards of the chain, in the order `classify_failure` tests them. */
  datatype Check = BelowScope | RefusalText | TooTerse

  predicate Fires(c: Check, maxSimilarity: real, answer: string) {
    match c
    case BelowScope => maxSimilarity < OutOfScopeThreshold
    case RefusalText => IsRefusal(answer)
    case TooTerse => |Split(answer)| < MinAnswerWords
  }

  /** The chain as data: `(guard, outcome)` pairs, tried in order. */
  const Chain: seq<(Check, FailureReason)> :=
    [(BelowScope, OutOfScope), (RefusalText, WeakContext), (TooTerse, ModelUncertain)]

  /** First matching rule wins; `Ok` when none fires. */
  function FirstMatch(rules: seq<(Check, FailureReason)>, maxSimilarity: real, answer: string): FailureReason {
    if rules == [] then Ok
    else if Fires(rules[0].0, maxSimilarity, answer) then rules[0].1
    else FirstMatch(rules[1..], maxSimilarity, answer)
  }

  /** The nested conditionals and the table-driven chain agree on every input. */
  lemma ClassifyIsFirstMatch(maxSimilarity: real, avgSimilarity: real, answer: string)
    ensures Classify(maxSimilarity, avgSimilarity, answer) == FirstMatch(Chain, maxSimilarity, answer)
  {
    var last := [(TooTerse, ModelUncertain)];
    var tail := [(RefusalText, WeakContext)] + last;
    assert FirstMatch(last, maxSimilarity, answer) ==
           if Fires(TooTerse, maxSimilarity, answer) then ModelUncertain else Ok by {
      assert last[1..] == [];
    }
    assert FirstMatch(tail, maxSimilarity, answer) ==
           if Fires(RefusalText, maxSimilarity, answer) then WeakContext else FirstMatch(last, maxSimilarity, answer) by {
      assert tail[1..] == last;
    }
    assert Chain == [(BelowScope, OutOfScope)] + tail;
    assert Chain[1..] == tail;
  }

  // ------------------------------------------------------------ check order

  lemma RefusalKeyShape()
    ensures Trimmed(RefusalKey) && WordCount(RefusalKey) == 3
  {
    var i, dont, know := "i", "don't", "know";
    assert NoSpace(i) && NoSpace(dont) && NoSpace(know);
    assert RefusalKey == i + (" " + (dont + (" " + know)));
    ThreeWords(i, dont, know);
  }

  /** The refusal is three words long, yet it is reported as `WeakContext`
      and not `ModelUncertain`: the refusal test comes first. Any capitalisation
      and any surrounding whitespace still match. */
  lemma RefusalBeforeWordCount(maxSimilarity: real, avgSimilarity: real, pre: string, x: string, post: string)
    requires maxSimilarity >= OutOfScopeThreshold
    requires AllSpace(pre) && AllSpace(post) && Lower(x) == RefusalKey
    ensures WordCount(pre + x + post) == 3 < MinAnswerWords
    ensures Classify(maxSimilarity, avgSimilarity, pre + x + post) == WeakContext
  {
    RefusalKeyShape();
    WordCountLower(x);
    assert Trimmed(x) by {
      LowerIdempotent(x);
      assert IsSpace(Lower(x)[0]) <==> IsSpace(x[0]);
      assert IsSpace(Lower(x)[|x| - 1]) <==> IsSpace(x[|x| - 1]);
    }
    StripSurrounding(pre, x, post);
    WordCountSurrounding(pre, x, post);
  }

  // ------------------------------------------------------------ worked examples

  /** Irrelevant evidence wins over any answer text. */
  lemma ExampleOutOfScope(anything: string)
    ensures Classify(0.2, 0.2, anything) == OutOfScope
  {
  }

  /** A bare refusal over relevant evidence is `WeakContext`. */
  lemma ExampleRefusal()
    ensures Classify(0.9, 0.9, "I don't know") == WeakContext
  {
    assert Lower("I don't know") == RefusalKey;
    RefusalBeforeWordCount(0.9, 0.9, [], "I don't know", []);
    assert [] + "I don't know" + [] == "I don't know";
  }

  /** A one-word answer over relevant evidence is `ModelUncertain`. */
  lemma ExampleOneWord(answer: string)
    requires answer == "Paris"
    ensures Classify(0.9, 0.9, answer) == ModelUncertain
  {
    assert NoSpace(answer) && Trimmed(answer);
    StripSurrounding([], answer, []);
    assert [] + answer + [] == answer;
    SingleWord(answer);
    assert |Lower(Strip(answer))| != |RefusalKey|;
  }

  /** The sentence of `ExampleOk`, word by word. */
  lemma SentenceLayout(answer: string)
    requires answer == "The capital of France is Paris."
    ensures answer == "The" + (" " + ("capital" + (" " + ("of" + (" " + ("France" + (" " + ("is" + (" " + "Paris.")))))))))
  {
  }

  /** The sentence of `ExampleOk` is not the refusal. */
  lemma SentenceNotRefusal(answer: string)
    requires answer == "The capital of France is Paris."
    ensures !IsRefusal(answer)
  {
    assert Trimmed(answer);
    StripSurrounding([], answer, []);
    assert [] + answer + [] == answer;
    assert |Lower(Strip(answer))| != |RefusalKey|;
  }

  /** A full six-word sentence over relevant evidence is `Ok`. */
  lemma ExampleOk(answer: string)
    requires answer == "The capital of France is Paris."
    ensures Classify(0.9, 0.9, answer) == Ok
  {
    SentenceLayout(answer);
    assert NoSpace("The") && NoSpace("capital") && NoSpace("of");
    assert NoSpace("France") && NoSpace("is") && NoSpace("Paris.");
    SixWords("The", "capital", "of", "France", "is", "Paris.");
    SentenceNotRefusal(answer);
  }
}

=== FILE: llm.dfy ===
/**
 The terseness guardrail of grounded generation. The language model itself is
 an oracle: `decode(question, context)` stands for prompting, beam-search
 decoding and detokenising, and yields an arbitrary string.
 */
module Llm {
  import opened Text
  import opened FailureClassifier

  /** The canonical refusal the guard substitutes. */
  const Refusal: string := "I don't know"

  /** Answers with fewer words than this are suspect unless they hold a copula. */
  const MinGuardWords: nat := 5

  /** `any(v in answer.lower() for v in [" is ", " was ", " are "])` */
  predicate HasCopula(answer: string) {
    var lower := Lower(answer);
    Contains(lower, " is ") || Contains(lower, " was ") || Contains(lower, " are ")
  }

  /** The guardrail: a short answer with no copula is replaced by the refusal;
      anything else passes through untouched. */
  function Guard(answer: string): (r: string)
    ensures r == answer || r == Refusal
    ensures WordCount(answer) >= MinGuardWords ==> r == answer
    ensures HasCopula(answer) ==> r == answer
    ensures WordCount(answer) < MinGuardWords && !HasCopula(answer) ==> r == Refusal
  {
    SplitCountsWords(answer);
    var tooShort := |Split(answer)| < MinGuardWords;
    var noVerb := !HasCopula(answer);
    if tooShort && noVerb then Refusal else answer
  }

  /** `generate_answer(question, context)`: the decoded text, stripped, then
      guarded. Whatever the model says, the caller gets either the refusal or a
      stripped answer that is at least five words long or holds a copula. */
  function GenerateAnswer(decode: (string, string) -> string, question: string, context: string): (answer: string)
    ensures answer == Refusal || answer == Strip(decode(question, context))
    ensures answer != Refusal ==> Trimmed(answer) && (WordCount(answer) >= MinGuardWords || HasCopula(answer))
    ensures var d := Strip(decode(question, context));
      (WordCount(d) >= MinGuardWords || HasCopula(d)) ==> answer == d
    ensures var d := Strip(decode(question, context));
      (WordCount(d) < MinGuardWords && !HasCopula(d)) ==> answer == Refusal
  {
    Guard(Strip(decode(question, context)))
  }

  /** A substring containing a character that `s` lacks cannot occur in `s`. */
  lemma MissingCharNotContained(s: string, sub: string, c: char)
    requires c in sub && c !in s
    ensures !Contains(s, sub)
  {
  }

  /** The substituted refusal lowercases to the key the classifier compares with. */
  lemma LowerRefusal()
    ensures Lower(Refusal) == RefusalKey
  {
    var tail := " don't know";
    assert Refusal == "I" + tail && RefusalKey == "i" + tail;
    LowerAppend("I", tail);
    assert Lower("I") == "i";
    LowerKeepsNonUpper(tail);
  }

  /** The refusal is three words long and has no copula, so the guard keeps it. */
  lemma RefusalFixed()
    ensures Lower(Refusal) == RefusalKey
    ensures WordCount(Refusal) == 3 && !HasCopula(Refusal)
    ensures Guard(Refusal) == Refusal
  {
    LowerRefusal();
    RefusalKeyShape();
    WordCountLower(Refusal);
    assert 's' !in RefusalKey && 'a' !in RefusalKey;
    MissingCharNotContained(RefusalKey, " is ", 's');
    MissingCharNotContained(RefusalKey, " was ", 's');
    MissingCharNotContained(RefusalKey, " are ", 'a');
  }

  /** The empty decoding is turned into the refusal. */
  lemma EmptyBecomesRefusal()
    ensures Guard([]) == Refusal
  {
    assert WordCount([]) == 0;
    assert !HasCopula([]);
  }

  /** Guarding twice is guarding once. */
  lemma GuardIdempotent(answer: string)
    ensures Guard(Guard(answer)) == Guard(answer)
  {
    if Guard(answer) != answer {
      RefusalFixed();
    }
  }

  /** Whenever the evidence clears the out-of-scope threshold, a refusal
      produced by the guard is classified `WeakContext`. */
  lemma GuardRefusalIsWeakContext(maxSimilarity: real, avgSimilarity: real, answer: string)
    requires maxSimilarity >= OutOfScopeThreshold
    requires Guard(answer) == Refusal
    ensures Classify(maxSimilarity, avgSimilarity, Guard(answer)) == WeakContext
  {
    var g := Guard(answer);
    assert Lower(g) == RefusalKey by {
      LowerRefusal();
    }
    RefusalBeforeWordCount(maxSimilarity, avgSimilarity, [], g, []);
    assert [] + g + [] == g;
  }
}

=== FILE: rag_script.dfy ===
/**
 The command-line variant of the pipeline: one fixed question over a fixed
 document folder, a gate that refuses instead of going to the web, a single
 grounded answer with its classification, and a web fallback (reachable only
 on `OutOfScope`) that checks for an empty web context before generating.
 Loading, chunking, embedding and indexing the folder are outside the model:
 the run starts from the batch the vector search returns.
 */
module RagScript {
  import opened Text
  import opened Retrieval
  import opened FailureClassifier
  import opened Llm
  import opened Capabilities
  import opened Wrappers
  import App

  /** Declared by the script, never used: it makes no retry. */
  const MaxRetries: nat := 1
  /** Declared by the script, never used: it makes no retry. */
  const RetryK: nat := 6
  const TopK: nat := 3
  const MinSimilarityThreshold: real := 0.45

  const Question: string := "What is Chichen Itza?"
  /** Printed when the gate trips. */
  const GateRefusal: string := "I don't know (no relevant document support)"
  /** Printed instead of a web answer when the snippets are empty or blank. */
  const NoWebInformation: string := "No relevant information found on the web."

  datatype Outcome =
    | RetrievalError               // `max()` of an empty similarity list raises
    | Refused(message: string)     // gate tripped: fixed refusal, script exits
    | Answered(answer: string, failure: FailureReason, webAnswer: Option<string>)

  datatype Run = Run(outcome: Outcome, events: seq<Event>)

  /** The web fallback of the script. A blank web context yields the fixed
      message and no generation; otherwise the web generator answers from it. */
  function WebFallback(question: string, o: Oracles): (r: (string, seq<Event>))
    ensures AllSpace(o.webSearch(question)) ==>
              r == (NoWebInformation, [WebSearch(question)]) && CountGenerateWeb(r.1) == 0
    ensures !AllSpace(o.webSearch(question)) ==>
              var webContext := o.webSearch(question);
              r == (o.webGenerate(question, webContext), [WebSearch(question), GenerateWeb(webContext)])
              && CountGenerateWeb(r.1) == 1
    ensures CountGenerate(r.1) == 0
  {
    var webContext := o.webSearch(question);
    StripEmptyIffAllSpace(webContext);
    CountSingle(WebSearch(question));
    if Strip(webContext) == [] then
      (NoWebInformation, [WebSearch(question)])
    else
      CountPair(WebSearch(question), GenerateWeb(webContext));
      CountSingle(GenerateWeb(webContext));
      (o.webGenerate(question, webContext), [WebSearch(question), GenerateWeb(webContext)])
  }

  /** The script from retrieval to its last print. */
  function RunScript(results: seq<Hit>, o: Oracles): (run: Run)
    ensures run.outcome.RetrievalError? <==> results == []
    ensures run.outcome.RetrievalError? ==> run.events == [Search(TopK)]
    // Below the gate: the fixed refusal, and neither generation nor classification.
    ensures run.outcome.Refused? <==>
              results != [] && Max(Similarities(results)) < MinSimilarityThreshold
    ensures run.outcome.Refused? ==>
              run.outcome.message == GateRefusal && run.events == [Search(TopK)]
    // Past the gate: exactly one grounded generation, over the top two chunks.
    ensures run.outcome.Answered? ==>
              && run.events == [Search(TopK), Generate(TopTwoContext(results))]
              && CountGenerate(run.events) == 1
              && run.outcome.answer == GenerateAnswer(o.decode, Question, TopTwoContext(results))
    // The web fallback is unreachable: the classification is never OutOfScope.
    ensures run.outcome.Answered? ==>
              run.outcome.failure != OutOfScope && run.outcome.webAnswer == None
              && CountGenerateWeb(run.events) == 0
    ensures CountGenerate(run.events) <= 1
  {
    if results == [] then
      Run(RetrievalError, [Search(TopK)])
    else
      var sims := Similarities(results);
      var maxSimilarity := Max(sims);
      var avgSimilarity := Mean(sims);
      CountSingle(Search(TopK));
      if maxSimilarity < MinSimilarityThreshold then
        Run(Refused(GateRefusal), [Search(TopK)])
      else
        var context := TopTwoContext(results);
        var answer := GenerateAnswer(o.decode, Question, context);
        var failure := Classify(maxSimilarity, avgSimilarity, answer);
        var events := [Search(TopK), Generate(context)];
        CountPair(Search(TopK), Generate(context));
        CountSingle(Generate(context));
        if failure == OutOfScope then
          var (webAnswer, webEvents) := WebFallback(Question, o);
          CountAppend(events, webEvents);
          Run(Answered(answer, failure, Some(webAnswer)), events + webEvents)
        else
          Run(Answered(answer, failure, None), events)
  }

  /** Where the script and the page part ways on the same batch and oracles.
      Below the gate the page generates a web answer while the script refuses
      and generates nothing. Past it both produce the same first answer with the
      same classification, but a retryable one costs the page a second grounded
      generation and the script none. */
  lemma DiffersFromApp(results: seq<Hit>, retryResults: seq<Hit>, o: Oracles)
    requires results != []
    ensures var app := App.RunApp(Question, true, results, retryResults, o);
            var script := RunScript(results, o);
            Max(Similarities(results)) < MinSimilarityThreshold ==>
              && app.outcome.WebOnly? && CountGenerateWeb(app.events) == 1
              && script.outcome.Refused? && CountGenerateWeb(script.events) == 0
    ensures var app := App.RunApp(Question, true, results, retryResults, o);
            var script := RunScript(results, o);
            var first := App.FirstAttempt(Question, results, o);
            Max(Similarities(results)) >= MinSimilarityThreshold ==>
              && app.outcome.Decided? && script.outcome.Answered?
              && script.outcome.answer == first.answer && script.outcome.failure == first.failure
              && CountGenerate(script.events) == 1
              && (App.Retryable(first.failure) <==> CountGenerate(app.events) == 2)
  {
    var app := App.RunApp(Question, true, results, retryResults, o);
    if Max(Similarities(results)) < MinSimilarityThreshold {
      var webContext := o.webSearch(Question);
      assert app.events == [Search(App.TopK)] + [WebSearch(Question), GenerateWeb(webContext)];
      CountAppend([Search(App.TopK)], [WebSearch(Question), GenerateWeb(webContext)]);
      CountPair(WebSearch(Question), GenerateWeb(webContext));
      CountSingle(Search(App.TopK));
      CountSingle(WebSearch(Question));
      CountSingle(GenerateWeb(webContext));
    }
  }
}

=== FILE: retrieval.dfy ===
/**
 What the pipelines see of a vector search: a batch of hits, each a chunk's
 text and its similarity score, and the two statistics computed from the
 batch. Scores are taken as arbitrary reals; how the index derives them from
 distances is not part of this model.
 */
module Retrieval {
  import opened Text

  /** Separator between chunk texts in a generation context. */
  const ContextSeparator: string := "\n\n"

  /** One entry of `search(...)`: `{"text": ..., "similarity": ...}`. */
  datatype Hit = Hit(text: string, similarity: real)

  /** `[r["similarity"] for r in results]` */
  function Similarities(hits: seq<Hit>): seq<real> {
    seq(|hits|, i requires 0 <= i < |hits| => hits[i].similarity)
  }

  /** `[r["text"] for r in results]` */
  function Texts(hits: seq<Hit>): seq<string> {
    seq(|hits|, i requires 0 <= i < |hits| => hits[i].text)
  }

  /** Python's slice `xs[:n]`: the first `n` elements, or all of them if fewer. */
  function Take<T>(xs: seq<T>, n: nat): (r: seq<T>)
    ensures |r| == if |xs| < n then |xs| else n
    ensures forall i :: 0 <= i < |r| ==> r[i] == xs[i]
  {
    if |xs| < n then xs else xs[..n]
  }

  function Sum(xs: seq<real>): real {
    if xs == [] then 0.0 else xs[0] + Sum(xs[1..])
  }

  /** Python's `max(xs)`, which raises on an empty list. */
  function Max(xs: seq<real>): (m: real)
    requires |xs| > 0
    ensures m in xs
    ensures forall i :: 0 <= i < |xs| ==> xs[i] <= m
  {
    if |xs| == 1 then xs[0]
    else
      var rest := Max(xs[1..]);
      if xs[0] >= rest then xs[0] else rest
  }

  function Min(xs: seq<real>): (m: real)
    requires |xs| > 0
    ensures m in xs
    ensures forall i :: 0 <= i < |xs| ==> m <= xs[i]
  {
    if |xs| == 1 then xs[0]
    else
      var rest := Min(xs[1..]);
      if xs[0] <= rest then xs[0] else rest
  }

  lemma {:induction false} SumBounds(xs: seq<real>, lo: real, hi: real)
    requires forall i :: 0 <= i < |xs| ==> lo <= xs[i] <= hi
    ensures |xs| as real * lo <= Sum(xs) <= |xs| as real * hi
    decreases |xs|
  {
    if xs != [] {
      SumBounds(xs[1..], lo, hi);
    }
  }

  lemma DivideBounds(total: real, n: real, lo: real, hi: real)
    requires n > 0.0 && n * lo <= total <= n * hi
    ensures lo <= total / n <= hi
  {
    var q := total / n;
    assert q * n == total;
    assert (q - lo) * n == total - n * lo;
    assert (hi - q) * n == n * hi - total;
  }

  /** Any bounds on every score bound their average. */
  lemma MeanBetween(xs: seq<real>, lo: real, hi: real)
    requires |xs| > 0
    requires forall i :: 0 <= i < |xs| ==> lo <= xs[i] <= hi
    ensures lo <= Sum(xs) / (|xs| as real) <= hi
  {
    SumBounds(xs, lo, hi);
    DivideBounds(Sum(xs), |xs| as real, lo, hi);
  }

  /** The arithmetic mean `sum(xs) / len(xs)` (also what `np.mean` computes),
      which always lies between the smallest and the largest score. */
  function Mean(xs: seq<real>): (avg: real)
    requires |xs| > 0
    ensures Min(xs) <= avg <= Max(xs)
  {
    MeanBetween(xs, Min(xs), Max(xs));
    Sum(xs) / (|xs| as real)
  }

  /** `"\n\n".join(texts[:2])`: the grounded context is the best two chunks,
      however many were retrieved. */
  function TopTwoContext(hits: seq<Hit>): (context: string)
    ensures |hits| == 0 ==> context == []
    ensures |hits| == 1 ==> context == hits[0].text
    ensures |hits| >= 2 ==> context == hits[0].text + ContextSeparator + hits[1].text
  {
    var two := Take(Texts(hits), 2);
    assert |hits| >= 2 ==> two[1..] == [hits[1].text] && Join(ContextSeparator, two[1..]) == hits[1].text;
    Join(ContextSeparator, two)
  }

  /** `"\n\n".join([r["text"] for r in hits])`: every retrieved chunk's text
      occurs in the context. */
  function FullContext(hits: seq<Hit>): (context: string)
    ensures forall i :: 0 <= i < |hits| ==> Contains(context, hits[i].text)
    ensures |hits| == 0 ==> context == []
    ensures TopTwoContext(hits) <= context
  {
    var texts := Texts(hits);
    assert TopTwoContext(hits) <= Join(ContextSeparator, texts) by {
      if |hits| > 0 {
        var k := if |hits| < 2 then |hits| else 2;
        assert Take(texts, 2) == texts[..k];
        JoinPrefix(ContextSeparator, texts, k);
      }
    }
    forall i | 0 <= i < |hits|
      ensures Contains(Join(ContextSeparator, texts), hits[i].text)
    {
      JoinContainsEach(ContextSeparator, texts, i);
    }
    Join(ContextSeparator, texts)
  }
}

=== FILE: text.dfy ===
/**
 The string primitives the answer pipeline relies on, as Python defines them
 for `str.strip()`, `str.lower()`, `str.split()`, `sub in s` and `sep.join(parts)`.
 Only the ASCII range is modelled: whitespace is the set of ASCII code points
 Python's `str.isspace()` accepts, and lowercasing maps `A`-`Z` to `a`-`z`.
 */
module Text {

  /** Tab, line feed, vertical tab, form feed, carriage return, the four
      information separators U+001C..U+001F, and space. */
  predicate IsSpace(c: char) {
    (9 <= c as int <= 13) || (28 <= c as int <= 32)
  }

  predicate AllSpace(s: string) {
    forall i :: 0 <= i < |s| ==> IsSpace(s[i])
  }

  predicate NoSpace(s: string) {
    forall i :: 0 <= i < |s| ==> !IsSpace(s[i])
  }

  /** Neither end of `s` is whitespace (vacuously true of the empty string). */
  predicate Trimmed(s: string) {
    s == [] || (!IsSpace(s[0]) && !IsSpace(s[|s| - 1]))
  }

  // ---------------------------------------------------------------- lower()

  function LowerChar(c: char): (d: char)
    ensures IsSpace(d) <==> IsSpace(c)
    ensures !('A' <= d <= 'Z')
  {
    if 'A' <= c <= 'Z' then (c as int + 32) as char else c
  }

  /** `s.lower()` over ASCII. */
  function Lower(s: string): string {
    seq(|s|, i requires 0 <= i < |s| => LowerChar(s[i]))
  }

  /** Lowercasing twice is lowercasing once, and it never moves whitespace. */
  lemma LowerIdempotent(s: string)
    ensures Lower(Lower(s)) == Lower(s)
    ensures forall i :: 0 <= i < |s| ==> (IsSpace(Lower(s)[i]) <==> IsSpace(s[i]))
  {
  }

  lemma {:induction false} LowerAppend(a: string, b: string)
    ensures Lower(a + b) == Lower(a) + Lower(b)
  {
    var l := Lower(a + b);
    assert forall i :: 0 <= i < |a| ==> l[i] == LowerChar(a[i]);
    assert forall i :: |a| <= i < |a + b| ==> l[i] == LowerChar(b[i - |a|]);
  }

  /** A string without capitals is its own lowercase. */
  lemma LowerKeepsNonUpper(s: string)
    requires forall i :: 0 <= i < |s| ==> !('A' <= s[i] <= 'Z')
    ensures Lower(s) == s
  {
  }

  // ---------------------------------------------------------------- strip()

  /** Index of the first non-whitespace character at or after `i`, or `|s|`. */
  function SkipSpaces(s: string, i: nat): (n: nat)
    requires i <= |s|
    ensures i <= n <= |s|
    ensures forall j :: i <= j < n ==> IsSpace(s[j])
    ensures n == |s| || !IsSpace(s[n])
    decreases |s| - i
  {
    if i == |s| || !IsSpace(s[i]) then i else SkipSpaces(s, i + 1)
  }

  /** Index just past the last non-whitespace character before `k`, or 0. */
  function SkipSpacesBack(s: string, k: nat): (m: nat)
    requires k <= |s|
    ensures m <= k
    ensures forall j :: m <= j < k ==> IsSpace(s[j])
    ensures m == 0 || !IsSpace(s[m - 1])
  {
    if k == 0 || !IsSpace(s[k - 1]) then k else SkipSpacesBack(s, k - 1)
  }

  /** `s.lstrip()`: drops the longest all-whitespace prefix. */
  function TrimLeft(s: string): (r: string)
    ensures |r| <= |s| && r == s[|s| - |r|..]
    ensures AllSpace(s[..|s| - |r|])
    ensures r == [] || !IsSpace(r[0])
  {
    s[SkipSpaces(s, 0)..]
  }

  /** `s.rstrip()`: drops the longest all-whitespace suffix. */
  function TrimRight(s: string): (r: string)
    ensures |r| <= |s| && r == s[..|r|]
    ensures AllSpace(s[|r|..])
    ensures r == [] || !IsSpace(r[|r| - 1])
  {
    s[..SkipSpacesBack(s, |s|)]
  }

  /** Where `strip()`'s result starts in `s`. */
  function StripStart(s: string): nat {
    |s| - |TrimLeft(s)|
  }

  /** `s.strip()`: `s` with its all-whitespace prefix and suffix removed. */
  function Strip(s: string): (r: string)
    ensures Trimmed(r)
  {
    TrimRight(TrimLeft(s))
  }

  /** A prefix `r` of the suffix `t` of `s` starting at `i`, followed in `t`
      only by whitespace, is the slice of `s` at `i`, followed in `s` only by
      whitespace. */
  lemma PrefixOfSuffix(s: string, t: string, r: string, i: nat)
    requires i <= |s| && t == s[i..]
    requires |r| <= |t| && r == t[..|r|] && AllSpace(t[|r|..])
    ensures i + |r| <= |s| && r == s[i..i + |r|] && AllSpace(s[i + |r|..])
  {
    assert s[i + |r|..] == t[|r|..];
  }

  /** `strip()` keeps a contiguous piece of `s` and drops only whitespace around it. */
  lemma StripDropsOnlySpace(s: string)
    ensures var i, r := StripStart(s), Strip(s);
            && i + |r| <= |s| && r == s[i..i + |r|]
            && AllSpace(s[..i]) && AllSpace(s[i + |r|..])
  {
    var t := TrimLeft(s);
    PrefixOfSuffix(s, t, TrimRight(t), |s| - |t|);
  }

  /** Whitespace followed by a string that does not start with whitespace:
      `lstrip()` keeps exactly that string. */
  lemma TrimLeftSpaces(pre: string, x: string)
    requires AllSpace(pre)
    requires x == [] || !IsSpace(x[0])
    ensures TrimLeft(pre + x) == x
  {
    var s := pre + x;
    forall j | 0 <= j < |pre|
      ensures IsSpace(s[j])
    {
      assert s[j] == pre[j];
    }
    assert x != [] ==> s[|pre|] == x[0];
    assert SkipSpaces(s, 0) == |pre|;
    assert s[|pre|..] == x;
  }

  /** A string that does not end with whitespace, followed by whitespace:
      `rstrip()` keeps exactly that string. */
  lemma TrimRightSpaces(x: string, post: string)
    requires AllSpace(post)
    requires x == [] || !IsSpace(x[|x| - 1])
    ensures TrimRight(x + post) == x
  {
    var s := x + post;
    forall j | |x| <= j < |s|
      ensures IsSpace(s[j])
    {
      assert s[j] == post[j - |x|];
    }
    assert x != [] ==> s[|x| - 1] == x[|x| - 1];
    assert SkipSpacesBack(s, |s|) == |x|;
    assert s[..|x|] == x;
  }

  /** Surrounding whitespace of any kind and amount is exactly what `strip()` removes. */
  lemma StripSurrounding(pre: string, x: string, post: string)
    requires AllSpace(pre) && AllSpace(post) && Trimmed(x)
    ensures Strip(pre + x + post) == x
  {
    if x == [] {
      assert pre + x + post == pre + post;
      TrimLeftSpaces(pre + post, []);
      assert pre + post + [] == pre + post;
    } else {
      assert pre + x + post == pre + (x + post);
      TrimLeftSpaces(pre, x + post);
      TrimRightSpaces(x, post);
    }
  }

  /** `not s.strip()` holds exactly of the all-whitespace strings. */
  lemma StripEmptyIffAllSpace(s: string)
    ensures Strip(s) == [] <==> AllSpace(s)
  {
    if Strip(s) == [] {
      StripDropsOnlySpace(s);
      var i := StripStart(s);
      assert s == s[..i] + s[i..];
    }
    if AllSpace(s) {
      StripSurrounding(s, [], []);
      assert s + [] + [] == s;
    }
  }

  // ---------------------------------------------------------------- split()

  /** The characters of `s` that are not whitespace, in order. */
  function RemoveSpaces(s: string): string {
    if s == [] then [] else (if IsSpace(s[0]) then [] else [s[0]]) + RemoveSpaces(s[1..])
  }

  function Concat(ws: seq<string>): string {
    if ws == [] then [] else ws[0] + Concat(ws[1..])
  }

  lemma {:induction false} RemoveSpacesAppend(a: string, b: string)
    ensures RemoveSpaces(a + b) == RemoveSpaces(a) + RemoveSpaces(b)
    decreases |a|
  {
    if a != [] {
      var head := if IsSpace(a[0]) then [] else [a[0]];
      calc {
        RemoveSpaces(a + b);
        { assert (a + b)[0] == a[0]; assert (a + b)[1..] == a[1..] + b; }
        head + RemoveSpaces(a[1..] + b);
        { RemoveSpacesAppend(a[1..], b); }
        head + (RemoveSpaces(a[1..]) + RemoveSpaces(b));
        (head + RemoveSpaces(a[1..])) + RemoveSpaces(b);
        RemoveSpaces(a) + RemoveSpaces(b);
      }
    } else {
      assert a + b == b;
    }
  }

  lemma {:induction false} RemoveSpacesOfAllSpace(s: string)
    requires AllSpace(s)
    ensures RemoveSpaces(s) == []
    decreases |s|
  {
    if s != [] {
      RemoveSpacesOfAllSpace(s[1..]);
    }
  }

  lemma {:induction false} RemoveSpacesOfNoSpace(s: string)
    requires NoSpace(s)
    ensures RemoveSpaces(s) == s
    decreases |s|
  {
    if s != [] {
      RemoveSpacesOfNoSpace(s[1..]);
    }
  }

  /** Index of the first whitespace character at or after `i`, or `|s|`. */
  function SkipWord(s: string, i: nat): (n: nat)
    requires i <= |s|
    ensures i <= n <= |s|
    ensures forall j :: i <= j < n ==> !IsSpace(s[j])
    ensures n == |s| || IsSpace(s[n])
    decreases |s| - i
  {
    if i == |s| || IsSpace(s[i]) then i else SkipWord(s, i + 1)
  }

  /** Length of the leading run of non-whitespace characters. */
  function LeadingWord(s: string): (n: nat)
    ensures n <= |s| && NoSpace(s[..n])
    ensures n == |s| || IsSpace(s[n])
  {
    SkipWord(s, 0)
  }

  /** A list of words: each is non-empty and free of whitespace. */
  predicate Words(ws: seq<string>) {
    forall k :: 0 <= k < |ws| ==> ws[k] != [] && NoSpace(ws[k])
  }

  lemma ConsWords(w: string, ws: seq<string>)
    requires w != [] && NoSpace(w) && Words(ws)
    ensures Words([w] + ws)
  {
    forall k | 0 <= k < |[w] + ws|
      ensures ([w] + ws)[k] != [] && NoSpace(([w] + ws)[k])
    {
      if k > 0 {
        assert ([w] + ws)[k] == ws[k - 1];
      }
    }
  }

  /** `s.split()`. Every word is non-empty and free of whitespace, the words
      together are the non-whitespace characters of `s` in order
      (`SplitKeepsText`), and there are as many words as word starts
      (`SplitCountsWords`). */
  function Split(s: string): (ws: seq<string>)
    ensures Words(ws)
    decreases |s|
  {
    var t := TrimLeft(s);
    if t == [] then []
    else
      var n := LeadingWord(t);
      assert 0 < n && t[..n][0] == t[0];
      ConsWords(t[..n], Split(t[n..]));
      [t[..n]] + Split(t[n..])
  }

  /** One unfolding of `Split`: skip the leading whitespace, cut off the
      first word, split the rest. */
  lemma SplitStep(s: string)
    ensures var t := TrimLeft(s);
            && s == s[..|s| - |t|] + t
            && (t == [] ==> Split(s) == [])
            && (t != [] ==> var n := LeadingWord(t);
                  0 < n && t == t[..n] + t[n..] && Split(s) == [t[..n]] + Split(t[n..]))
  {
  }

  /** Splitting loses exactly the whitespace: the words, concatenated, are the
      non-whitespace characters of `s` in their original order. */
  lemma {:induction false} SplitKeepsText(s: string)
    ensures Concat(Split(s)) == RemoveSpaces(s)
    decreases |s|
  {
    SplitStep(s);
    var t := TrimLeft(s);
    var pre := s[..|s| - |t|];
    assert RemoveSpaces(s) == RemoveSpaces(t) by {
      RemoveSpacesAppend(pre, t);
      RemoveSpacesOfAllSpace(pre);
    }
    if t != [] {
      var n := LeadingWord(t);
      var w, u := t[..n], t[n..];
      assert RemoveSpaces(t) == w + RemoveSpaces(u) by {
        RemoveSpacesAppend(w, u);
        RemoveSpacesOfNoSpace(w);
      }
      SplitKeepsText(u);
      var ws := [w] + Split(u);
      assert ws[0] == w && ws[1..] == Split(u);
      assert Concat(ws) == w + Concat(Split(u));
    }
  }

  /** Reference word count: positions holding a non-whitespace character whose
      predecessor is whitespace (or, for the first position, `afterSpace`). */
  function WordStarts(s: string, afterSpace: bool): nat {
    if s == [] then 0
    else (if afterSpace && !IsSpace(s[0]) then 1 else 0) + WordStarts(s[1..], IsSpace(s[0]))
  }

  function WordCount(s: string): nat {
    WordStarts(s, true)
  }

  lemma {:induction false} WordStartsSkipSpaces(pre: string, t: string, b: bool)
    requires AllSpace(pre) && pre != []
    ensures WordStarts(pre + t, b) == WordStarts(t, true)
    decreases |pre|
  {
    assert (pre + t)[1..] == pre[1..] + t;
    if |pre| > 1 {
      WordStartsSkipSpaces(pre[1..], t, true);
    } else {
      assert pre[1..] + t == t;
    }
  }

  lemma {:induction false} WordStartsOneWord(w: string, u: string, b: bool)
    requires w != [] && NoSpace(w)
    ensures WordStarts(w + u, b) == (if b then 1 else 0) + WordStarts(u, false)
    decreases |w|
  {
    assert (w + u)[1..] == w[1..] + u;
    if |w| > 1 {
      WordStartsOneWord(w[1..], u, false);
    } else {
      assert w[1..] + u == u;
    }
  }

  /** After a word, the count restarts at the next whitespace character. */
  lemma WordStartsAfterWord(u: string)
    requires u == [] || IsSpace(u[0])
    ensures WordStarts(u, false) == WordStarts(u, true)
  {
  }

  /** A word followed by a space adds one to the count of what follows. */
  lemma WordThenSpace(w: string, rest: string)
    requires w != [] && NoSpace(w)
    ensures WordStarts(w + (" " + rest), true) == 1 + WordStarts(rest, true)
  {
    assert AllSpace(" ");
    WordStartsOneWord(w, " " + rest, true);
    WordStartsSkipSpaces(" ", rest, false);
  }

  /** A lone word counts as one. */
  lemma SingleWord(w: string)
    requires w != [] && NoSpace(w)
    ensures WordCount(w) == 1
  {
    WordStartsOneWord(w, [], true);
    assert w + [] == w;
  }

  /** Three space-separated words count as three. */
  lemma ThreeWords(a: string, b: string, c: string)
    requires a != [] && b != [] && c != []
    requires NoSpace(a) && NoSpace(b) && NoSpace(c)
    ensures WordCount(a + (" " + (b + (" " + c)))) == 3
  {
    WordThenSpace(b, c);
    SingleWord(c);
    WordThenSpace(a, b + (" " + c));
  }

  /** Six space-separated words count as six. */
  lemma SixWords(a: string, b: string, c: string, d: string, e: string, f: string)
    requires a != [] && b != [] && c != [] && d != [] && e != [] && f != []
    requires NoSpace(a) && NoSpace(b) && NoSpace(c) && NoSpace(d) && NoSpace(e) && NoSpace(f)
    ensures WordCount(a + (" " + (b + (" " + (c + (" " + (d + (" " + (e + (" " + f)))))))))) == 6
  {
    var def := d + (" " + (e + (" " + f)));
    var cdef := c + (" " + def);
    var bcdef := b + (" " + cdef);
    ThreeWords(d, e, f);
    WordThenSpace(c, def);
    WordThenSpace(b, cdef);
    WordThenSpace(a, bcdef);
  }

  /** `len(s.split())` agrees with the reference word count. */
  lemma {:induction false} SplitCountsWords(s: string)
    ensures |Split(s)| == WordCount(s)
    decreases |s|
  {
    SplitStep(s);
    var t := TrimLeft(s);
    var pre := s[..|s| - |t|];
    assert WordStarts(s, true) == WordStarts(t, true) by {
      if pre != [] {
        WordStartsSkipSpaces(pre, t, true);
      }
    }
    if t != [] {
      var n := LeadingWord(t);
      var u := t[n..];
      assert WordStarts(t, true) == 1 + WordStarts(u, true) by {
        WordStartsOneWord(t[..n], u, true);
        WordStartsAfterWord(u);
      }
      SplitCountsWords(u);
    }
  }

  /** Trailing whitespace adds no word. */
  lemma {:induction false} WordStartsTrailingSpaces(x: string, post: string, b: bool)
    requires AllSpace(post)
    ensures WordStarts(x + post, b) == WordStarts(x, b)
    decreases |x|
  {
    if x == [] {
      assert x + post == post;
      WordStartsAllSpace(post, b);
    } else {
      assert (x + post)[0] == x[0];
      assert (x + post)[1..] == x[1..] + post;
      WordStartsTrailingSpaces(x[1..], post, IsSpace(x[0]));
    }
  }

  lemma {:induction false} WordStartsAllSpace(s: string, b: bool)
    requires AllSpace(s)
    ensures WordStarts(s, b) == 0
    decreases |s|
  {
    if s != [] {
      WordStartsAllSpace(s[1..], true);
    }
  }

  /** Leading and trailing whitespace never changes the word count. */
  lemma WordCountSurrounding(pre: string, x: string, post: string)
    requires AllSpace(pre) && AllSpace(post)
    ensures WordCount(pre + x + post) == WordCount(x)
  {
    assert pre + x + post == pre + (x + post);
    if pre != [] {
      WordStartsSkipSpaces(pre, x + post, true);
    } else {
      assert pre + (x + post) == x + post;
    }
    WordStartsTrailingSpaces(x, post, true);
  }

  /** The word count depends only on where the whitespace is, so lowercasing keeps it. */
  lemma {:induction false} WordCountLower(s: string)
    ensures WordCount(Lower(s)) == WordCount(s)
  {
    WordStartsLower(s, true);
  }

  lemma {:induction false} WordStartsLower(s: string, b: bool)
    ensures WordStarts(Lower(s), b) == WordStarts(s, b)
    decreases |s|
  {
    if s != [] {
      assert Lower(s)[1..] == Lower(s[1..]);
      WordStartsLower(s[1..], IsSpace(s[0]));
    }
  }

  // ---------------------------------------------------------------- `sub in s`

  /** `sub` occurs in `s` starting at index `i`. */
  predicate OccursAt(s: string, sub: string, i: int) {
    0 <= i && i + |sub| <= |s| && s[i..i + |sub|] == sub
  }

  /** Python's substring test `sub in s`. */
  function Contains(s: string, sub: string): (b: bool)
    ensures b <==> exists i :: OccursAt(s, sub, i)
    decreases |s|
  {
    if |s| < |sub| then false
    else if s[..|sub|] == sub then
      assert OccursAt(s, sub, 0);
      true
    else
      var b := Contains(s[1..], sub);
      assert b ==> exists i :: OccursAt(s, sub, i) by {
        if b {
          var j :| OccursAt(s[1..], sub, j);
          assert OccursAt(s, sub, j + 1) by { assert s[j + 1..j + 1 + |sub|] == s[1..][j..j + |sub|]; }
        }
      }
      assert (exists i :: OccursAt(s, sub, i)) ==> b by {
        if exists i :: OccursAt(s, sub, i) {
          var i :| OccursAt(s, sub, i);
          assert i != 0;
          assert OccursAt(s[1..], sub, i - 1) by { assert s[1..][i - 1..i - 1 + |sub|] == s[i..i + |sub|]; }
        }
      }
      b
  }

  // ---------------------------------------------------------------- join()

  /** `sep.join(parts)`. */
  function Join(sep: string, parts: seq<string>): (r: string)
    ensures |parts| == 0 ==> r == []
    ensures |parts| > 0 ==> |parts[0]| <= |r| && r[..|parts[0]|] == parts[0]
  {
    if |parts| == 0 then []
    else if |parts| == 1 then parts[0]
    else parts[0] + sep + Join(sep, parts[1..])
  }

  /** Joining keeps the parts in order: joining the first `k` parts gives a
      prefix of joining all of them. */
  lemma {:induction false} JoinPrefix(sep: string, parts: seq<string>, k: nat)
    requires 0 < k <= |parts|
    ensures Join(sep, parts[..k]) <= Join(sep, parts)
    decreases k
  {
    if k > 1 {
      var rest := parts[1..];
      assert parts[..k][0] == parts[0] && parts[..k][1..] == rest[..k - 1];
      JoinPrefix(sep, rest, k - 1);
      var a, b := Join(sep, rest[..k - 1]), Join(sep, rest);
      assert Join(sep, parts[..k]) == parts[0] + sep + a;
      assert Join(sep, parts) == parts[0] + sep + b;
      assert (parts[0] + sep + b)[..|parts[0] + sep + a|] == parts[0] + sep + a by {
        assert b[..|a|] == a;
      }
    } else {
      assert parts[..k] == [parts[0]];
    }
  }

  /** Every part occurs, as a substring, in the joined string. */
  lemma {:induction false} JoinContainsEach(sep: string, parts: seq<string>, k: nat)
    requires k < |parts|
    ensures Contains(Join(sep, parts), parts[k])
    decreases |parts|
  {
    var r := Join(sep, parts);
    if k == 0 {
      assert OccursAt(r, parts[0], 0);
    } else {
      JoinContainsEach(sep, parts[1..], k - 1);
      var tail := Join(sep, parts[1..]);
      var j :| OccursAt(tail, parts[k], j);
      var off := |parts[0]| + |sep|;
      assert r == parts[0] + sep + tail;
      assert OccursAt(r, parts[k], off + j) by {
        assert r[off + j..off + j + |parts[k]|] == tail[j..j + |parts[k]|];
      }
    }
  }
}

=== FILE: wrappers.dfy ===
/** An optional value. */
module Wrappers {
  datatype Option<T> = None | Some(value: T)
}
